=== FILE: README.md ===
# Cattle farm — a Dafny model

This project models the rules of a small cattle-farm simulation (`farm.py`):

- a **bull** that can breed only off its recovery cooldown, in health and with enough virility, and that spends virility on every breeding;
- a **cow** with a pregnancy flag and day counter, a breeding check that raises rather than answering false, and a closed-form milk yield;
- a **milk bucket** whose capacity is only enforced against a bucket that is already saturated;
- the **farm**: roster updates, the milking pass that rotates through buckets and credits storage, the sale that drains buckets into a 100-litre tank, the breeding pre-check and the day tick.

Every operation is a pure function over immutable records. Each exception becomes an `Errors.Result` error, tagged with a `Reason` that names the exception's message. Where an operation raises after it has already changed state (`sell_milk`), the function returns that changed state beside the error.

Modules:

- `Errors`: the `Result` type and the reason tags.
- `Buckets`: `MilkBucket`.
- `Animals`: `Mammal`/`Cattle`, `Bull`, `Cow`.
- `Farms`: `CattleFarm` and the season table.
- `AnimalProofs` and `FarmProofs`: properties across several calls.

The milking pass is modelled from its loop body outward:

- `Farms.TryBucket` is one turn of the retry loop.
- `Farms.RunAttempts` is the loop run for at most a given number of turns.
- `Farms.MilkCow` is the unbounded loop for a cow that can be milked.
- `Farms.MilkPass` folds over the roster. It threads one bucket index from cow to cow, as the source's `current_bucket` is, and records where each animal left it (its stop).
- `FarmProofs` relates the stops to the buckets. Each animal starts at the previous animal's stop. Each cow's milk lands in the first bucket from there that accepts it, judged by that bucket's volume at that moment. Each final bucket holds its own milk plus the milk of the cows that stopped at it.

The source's quirks are reproduced, not fixed:

- A bucket may end above capacity.
- `Cow.breed` lets cow-side refusals raise.
- The sale empties each bucket before its tank check, so on overflow the offending bucket's milk is lost while earlier buckets are already in storage (`FarmProofs.SaleOverflowSamples`).
- Milking credits each yield both to a bucket and to storage.
- The yield has no floor, so an old, unfed cow pours a negative amount (`AnimalProofs.YieldCanBeNegative`).
- The breeding pre-check always raises on a season attribute that is never set.
- Health is always 100 at creation. `Mammal` ignores its `health` argument, so no constructor here takes one.

## Model

| member | source | states |
|---|---|---|
| Buckets.AddMilk | farm.py:109-114 | refuses, leaving the volume as it was, exactly when the bucket is already at or past capacity and the pour would leave it past capacity; otherwise the whole amount goes in, even past 5.0 litres |
| Buckets.Empty | farm.py:116-119 | leaves a fresh empty bucket and hands over everything the bucket held |
| Buckets.RefillAfterEmpty | farm.py:109-119 | pouring the emptied milk back into the emptied bucket restores the original bucket |
| Buckets.EmptyBucketAcceptsAnything | farm.py:109-114 | an empty bucket accepts any amount, however large |
| Buckets.BucketMayOverflow | farm.py:109-114 | 4.5 + 0.3 gives 4.8, and 4.9 + 1.0 is accepted and gives 5.9, past capacity |
| Buckets.FullBucketRefuses | farm.py:109-114 | a bucket at exactly 5.0 litres refuses a pour if and only if the amount is positive |
| Buckets.OverfullBucketRefusesEmptyPour | farm.py:109-114 | a bucket past capacity refuses even a pour of zero |
| Animals.NewCow | farm.py:48-55 | a new cow starts at health 100, no food, not pregnant with a zero counter, and passes the cow breeding check |
| Animals.NewBull | farm.py:24-28 | a new bull starts at health 100 and virility 50 with no cooldown, so it can breed |
| Animals.Eat | farm.py:20-21 | food rises by the amount eaten, and nothing else about the animal changes |
| Animals.BullCanBreed | farm.py:35-40 | a bull can breed exactly when it has no cooldown left, health of at least 60 and virility of at least 50; any positive cooldown alone rules it out |
| Animals.Yield | farm.py:61-71 | up to age five the yield is half a litre per udder plus a tenth of the food, times the multiplier; past five a tenth of a litre per year over five is taken off; it is non-negative for a cow of five or younger with non-negative udders, food and multiplier |
| Animals.BullBreed | farm.py:42-46 | succeeds exactly when the bull can breed, and otherwise raises with the bull unchanged; on success the cooldown becomes 3 and virility drops by 10, nothing else changes, and the bull can no longer breed |
| Animals.TickBull | farm.py:227-230 | a positive cooldown drops by one; a zero cooldown stays, so it never goes negative; nothing else changes |
| Animals.CowCanBreed | farm.py:87-92 | succeeds exactly when the cow is not pregnant and has health of at least 70, and then always answers true; a pregnant cow raises for pregnancy first, and otherwise a weak cow raises for weakness |
| Animals.CowBreed | farm.py:94-101 | an ineligible bull gives false with both animals unchanged; an eligible bull with a pregnant or weak cow raises; otherwise the cow becomes pregnant, the bull pays its breeding cost and true is returned; the pregnancy counter is untouched, and "not pregnant implies a zero counter" is kept |
| Animals.UpdatePregnancy | farm.py:77-85 | a cow that is not carrying answers false and is unchanged; a carrying cow's counter advances, and it calves (answering true, reset to not pregnant with a zero counter) exactly when the counter reaches 283; the counter invariant is kept |
| Animals.TickCow | farm.py:231-232 | a carrying cow's counter advances by one with no check against the gestation period; any other cow is unchanged |
| Animals.TickAnimal | farm.py:227-232 | each animal keeps its kind and gets the bull or cow day tick; the soundness invariant is kept |
| Animals.CowMilk | farm.py:57-75 | a cow under two raises and changes nothing; otherwise it succeeds exactly when the bucket accepts the formula's yield, it returns that yield, the bucket grows by it, and only then is the food reset to zero; a refused pour raises as bucket-full |
| Animals.MilkAnimal | farm.py:30-33 | milking a bull always raises as the wrong species; only a cow can be milked |
| AnimalProofs.CoolingBullCannotBreed | farm.py:35-40 | a bull with a positive cooldown cannot breed and its breeding raises, whatever its health and virility |
| AnimalProofs.CowBreedMovesBullAsRequested | farm.py:94-101 | when Cow.breed returns, the bull is exactly as after a standalone breeding request |
| AnimalProofs.SpentBullStaysSpent | farm.py:42-46 | over any sequence of feeding, day ticks and breeding requests, virility never rises, and a bull below virility 50 never breeds again |
| AnimalProofs.FreshBullBreedsOnce | farm.py:24-46 | a new bull can breed once, and after that one breeding it can never breed again, whatever follows |
| AnimalProofs.RefusedBreedingIsAtomic | farm.py:94-101 | a Cow.breed that answers false leaves both animals unchanged; one that raises does so only when the bull was eligible and the cow pregnant or weak |
| AnimalProofs.IdleCowNeverCalves | farm.py:77-85 | repeated pregnancy updates on a cow that is not carrying produce no calf and change nothing |
| AnimalProofs.CalvesExactlyOnce | farm.py:77-85 | a carrying cow that is not yet due calves exactly once over any number of updates, on the update where her counter reaches 283; before that her counter has advanced one per update, and after it she is reset |
| AnimalProofs.YieldSamples | farm.py:61-71 | four udders, food 10, age 5, multiplier 1 yield 3.0 litres; age 10 with no food yields 1.5 |
| AnimalProofs.YieldCanBeNegative | farm.py:68-75 | the yield has no floor: a 30-year-old unfed cow yields -0.5, and the bucket accepts it and loses half a litre |
| AnimalProofs.FeedingRaisesYield | farm.py:57-75 | every unit of food eaten since the last milking adds a tenth of a litre, times the season multiplier, to the yield |
| AnimalProofs.CalfIsNeverMilked | farm.py:57-59 | milking a cow under two always raises as too young |
| AnimalProofs.RefusedMilkingKeepsYield | farm.py:73-74 | a cow old enough to milk is refused only by a saturated bucket, and a retry on another bucket yields the same amount |
| Farms.SeasonMultiplier | farm.py:124-129 | the table knows exactly spring, summer, autumn and winter, with multipliers between 0.8 and 1.2 and summer at 1.0; any other season raises |
| Farms.NewFarm | farm.py:131-136 | a new farm has no cattle, empty storage and three buckets, each of them empty |
| Farms.AddCattle | farm.py:138-142 | succeeds exactly for a cow or a bull, which is appended at the end of the roster with nothing else changed; anything else raises |
| Farms.FeedAllCattle | farm.py:144-147 | every animal, in roster order, is exactly that animal after eating the amount: its food rises by it and nothing else about it or the farm changes |
| Farms.UpdateDay | farm.py:227-232 | every animal gets its day tick and nothing else in the farm changes; the counter and cooldown invariants are kept |
| Farms.Stocked | farm.py:158-159 | when the index has run past the last bucket, exactly one fresh bucket is appended, so the index is always in range |
| Farms.TryBucket | farm.py:156-165 | a turn is refused exactly when the cow is under two or the bucket refuses the yield; a refusal moves the index on by one and keeps the cow and any appended bucket; an acceptance fills that bucket and resets the food, and total bucket volume grows by the yield; a cow that can be milked is never refused by an appended fresh bucket |
| Farms.RunAttempts | farm.py:156-165 | the loop cut off after a given number of turns leaves the index in range and the cow as it was |
| Farms.MilkCow | farm.py:156-165 | for a cow of two or more the loop ends, at an index from the current one up to one past the last bucket; the yield is poured into that bucket in place, or into one fresh bucket appended past the end, and nothing else in the row changes; the food is reset and total bucket volume grows by exactly the yield |
| Farms.MilkCowSearch | farm.py:156-165 | every bucket the loop skipped, from the current index up to the stop, refused the cow's yield, and the stop, when it is an existing bucket, accepted it; so the stop is the first accepting bucket from the current index |
| Farms.MilkPass | farm.py:151-165 | one stop is recorded per animal; every cow's food is reset and bulls are unchanged; the final index is at or past the starting one and within the row; the row only grows (how far is bounded by `FarmProofs.MilkPassRowEnds`), and the buckets before the starting index are untouched; storage and the total bucket volume each grow by the sum of all the cows' yields |
| Farms.MilkAllCows | farm.py:149-165 | an unknown season raises before anything changes; otherwise, position by position, every cow has her food reset and every bull is unchanged; the season's total yield is credited both to storage and to the buckets, with no storage capacity check; the bucket row only grows (how far is bounded by `FarmProofs.MilkAllCowsRoutes`); a sound roster stays sound |
| Farms.DrainInto | farm.py:169-173 | a drain that gets through empties every bucket into storage |
| Farms.DrainSucceedsIff | farm.py:169-173 | the drain gets through exactly when every running total of storage plus the buckets drained so far is within 100 litres |
| Farms.DrainOverflow | farm.py:169-173 | on overflow, the first bucket that does not fit has been emptied, and its milk is lost; the buckets before it are in storage; later buckets are untouched |
| Farms.SellMilk | farm.py:167-178 | succeeds exactly when every running total stays within the tank; then it returns storage plus all the bucket milk times the price, and leaves storage and every bucket empty; otherwise it raises as storage-full; the cattle are never touched |
| Farms.BreedCattle | farm.py:180-202 | always raises, reporting the first failing check in the order cow type, bull type, cow pregnant, cow health below 70, cow age below two, bull age below two, bull virility below 50; it reaches the missing-season error exactly when the pair is a cow and a bull and they pass every animal check in turn (cow not pregnant, cow healthy, cow at least two, bull at least two, bull virility at least 50) |
| FarmProofs.MilkPassSharesIndex | farm.py:151-165 | the index is shared: each animal starts at the previous animal's stop (the first at the pass's starting index); no stop is before its start; a bull's stop is its start; every cow's stop is a bucket of the final row; the pass ends at the last stop |
| FarmProofs.MilkPassRoutes | farm.py:154-165 | every cow's search ran from her start: each bucket she passed refused her yield, and the bucket she stopped at accepted it, each judged at its volume at her turn (its starting volume plus the milk of the earlier cows that stopped there) |
| FarmProofs.MilkPassFills | farm.py:154-165 | after the pass every bucket holds its starting volume (none for an appended one) plus the yields of exactly the cows that stopped at it |
| FarmProofs.MilkAllCowsRoutes | farm.py:149-165 | for a known season and milkable cattle, there is one stop per animal, starting from bucket 0: stops never go back and a bull does not move the index; each cow's milk is in the first bucket from the previous stop that accepts it at that moment; each final bucket holds its own milk plus that of the cows that stopped at it; a grown row ends one past some cow's stop, so no bucket is appended beyond the last one a cow was milked into |
| FarmProofs.MilkPassEndsInRow | farm.py:154-165 | a pass that starts at an existing bucket, or that milks at least one cow, leaves the index on a bucket of the final row |
| FarmProofs.MilkPassRowEnds | farm.py:158-159 | buckets are appended only where the index runs off the row: when the row has grown, the pass ends on its last bucket, and that bucket is some cow's stop |
| FarmProofs.FirstBucketTakesTheMilk | farm.py:149-165 | one unfed three-year-old, four-uddered cow milked in summer into three empty buckets leaves them at 2, 0 and 0 litres: the first bucket takes the milk in place and no bucket is appended |
| FarmProofs.FullBucketPassesTheMilkOn | farm.py:156-165 | a saturated first bucket turns a positive yield away, and the empty bucket after it takes the whole yield |
| FarmProofs.StartingBucketTakesTheMilk | farm.py:156-165 | when the bucket at the current index accepts the yield, the loop stops there |
| FarmProofs.NextCowStartsWhereLastStopped | farm.py:151-165 | two cows, a saturated first bucket and an empty second one, with a positive first yield that the second bucket can take along with the second yield: both cows stop at bucket 1; the second cow's search starts at bucket 1, not bucket 0 |
| FarmProofs.MatureCowSettles | farm.py:156-165 | for a cow of two or more, the loop given more turns than buckets remaining settles on exactly the unbounded loop's result |
| FarmProofs.CalfNeverSettles | farm.py:156-165 | for a cow under two, no number of turns settles: each turn moves the index on by one, and the bucket row grows to cover the index while its existing buckets stay as they were |
| FarmProofs.FullTankRefusesSale | farm.py:169-172 | with storage already past 100 litres, the sale fails at the first bucket, even an empty one: storage stays where it was, the first bucket is emptied with its milk lost, and every later bucket is untouched |
| FarmProofs.SaleOverflow | farm.py:167-178 | a failed sale has a first offending bucket: the buckets before it are in storage; it and they are empty; later buckets are untouched; the milk lost is exactly the offending bucket's |
| FarmProofs.SaleOverflowSamples | farm.py:167-173 | from 95 litres, a 10-litre first bucket fails with storage at 95 and the 10 litres gone; buckets of 3, 7 and 1 fail with storage at 98 and the last bucket untouched |
| FarmProofs.MilkThenSellCountsTwice | farm.py:149-178 | after milking from an empty farm, a successful sale pays for twice the litres the cows gave |
| FarmProofs.AdvanceDaysKeepsRoster | farm.py:227-232 | day ticks keep the roster's length and each animal's kind |
| FarmProofs.CooldownAfterDays | farm.py:227-230 | after n days a bull's cooldown is its old value less n, but never below zero; nothing else about the bull changes |
| FarmProofs.PregnancyOutlastsGestation | farm.py:231-232 | after n days a carrying cow is still carrying with her counter n higher, so day ticks alone run the counter past 283 with no calf |
| FarmProofs.BreedCheckIgnoresBullReadiness | farm.py:194-198 | the pre-check's answer does not depend on the bull's cooldown or health |
| FarmProofs.BreedCheckDisagreesWithBreed | farm.py:180-202 | a bull in cooldown passes every animal check of the pre-check, yet Cow.breed refuses it; a cow under two fails the pre-check, yet Cow.breed makes her pregnant |
| FarmProofs.CowSideRefusalsAgree | farm.py:180-190 | whenever Cow.breed raises on the cow's side, the pre-check raises for the same reason |

## Left out

- Console output: the `print` calls in `Bull.milk`, `feed_all_cattle` and `milk_all_cows`. These have no effect on state.
- `test_breeding` (farm.py:204-225) is not modelled. It is a console driver that calls `Cow.breed` and prints the outcome, which `Animals.CowBreed` covers.
- The demo at farm.py:236-255 is not modelled.
- Floating-point rounding is not modelled. Litres, food and multipliers are exact `real`s, so `0.1` is exactly one tenth.
- Exception messages are reduced to a `Reason` tag.
- The key error of an unknown season and the attribute error of `breed_cattle` are tagged like the other exceptions.
- `weight`, `breed_type`, `last_milking` and the farm's `storage_capacity` field are not modelled. The first three are stored but never read by any rule. The last is the constant `Farms.StorageCapacity`.
- Object identity and aliasing are not modelled. `breed_cattle` takes its two animals by value, since it never changes them.
- The default arguments (`season='summer'`, `udder_count=4`, `season_multiplier=1.0`) are explicit parameters.
- The unbounded milking loop is not modelled as executable behaviour. `Farms.MilkAllCows` requires every cow to be at least two whenever the season is known. For a younger cow the loop never ends, and `FarmProofs.CalfNeverSettles` states this about the bounded loop `Farms.RunAttempts`.
- Farms.RunAttempts: its own contract only keeps the index in range and the cow unchanged. Its relation to the unbounded loop is stated by `FarmProofs.MatureCowSettles` and `FarmProofs.CalfNeverSettles`.
- FarmProofs.FullTankRefusesSale: requires the first bucket to hold no negative milk. A negative yield can leave a bucket below zero, and such a bucket can bring an overfull tank back under 100 litres.

=== FILE: animal_proofs.dfy ===
/** Properties of single animals and buckets over time: the bull's spent
    virility, the once-only calving, the yield formula and the bucket's loose
    capacity rule. */
module AnimalProofs {
  import opened Errors
  import opened Buckets
  import opened Animals

  // ---------------------------------------------------------------- bulls

  /** A bull in its cooldown cannot breed, whatever its health and virility. */
  lemma CoolingBullCannotBreed(b: Bull)
    requires b.recovery > 0
    ensures !BullCanBreed(b)
    ensures BullBreed(b) == Err(BullNotReady)
  {
  }

  /** Everything that can happen to a bull: it eats, a day passes, or it is
      asked to breed (a refused request raises and changes nothing). */
  datatype BullEvent = Fed(amount: real) | DayPassed | MatingRequested

  function BullAfter(b: Bull, e: BullEvent): Bull {
    match e
    case Fed(x) => Eat(BullAnimal(b), x).bull
    case DayPassed => TickBull(b)
    case MatingRequested => if BullBreed(b).Ok? then BullBreed(b).value else b
  }

  function BullAfterAll(b: Bull, events: seq<BullEvent>): Bull
    decreases |events|
  {
    if |events| == 0 then b else BullAfterAll(BullAfter(b, events[0]), events[1..])
  }

  /** Cow.breed moves the bull exactly as a breeding request does. */
  lemma CowBreedMovesBullAsRequested(c: Cow, b: Bull)
    requires CowBreed(c, b).Ok?
    ensures CowBreed(c, b).value.bull == BullAfter(b, MatingRequested)
  {
  }

  /** Nothing raises virility, and a bull below the breeding virility never
      breeds again. */
  lemma {:induction false} SpentBullStaysSpent(b: Bull, events: seq<BullEvent>)
    ensures BullAfterAll(b, events).virility <= b.virility
    ensures b.virility < BreedingVirility ==> !BullCanBreed(BullAfterAll(b, events))
    decreases |events|
  {
    if |events| > 0 {
      SpentBullStaysSpent(BullAfter(b, events[0]), events[1..]);
    }
  }

  /** From the starting virility, one successful breeding leaves the bull
      unable to breed for good. */
  lemma FreshBullBreedsOnce(age: int, events: seq<BullEvent>)
    ensures BullBreed(NewBull(age)).Ok?
    ensures !BullCanBreed(BullAfterAll(BullBreed(NewBull(age)).value, events))
  {
    SpentBullStaysSpent(BullBreed(NewBull(age)).value, events);
  }

  /** A refused Cow.breed, plain false or raised, leaves both animals as they were. */
  lemma RefusedBreedingIsAtomic(c: Cow, b: Bull)
    requires CowBreed(c, b).Err? || !CowBreed(c, b).value.bred
    ensures CowBreed(c, b).Ok? ==> CowBreed(c, b).value == Mating(c, b, false)
    ensures CowBreed(c, b).Err? ==> BullCanBreed(b) && (c.pregnant || c.health < CowBreedingHealth)
  {
  }

  // ------------------------------------------------------------- calving

  /** `n` calls of update_pregnancy: the cow afterwards and the calves born. */
  datatype Course = Course(cow: Cow, calves: nat)

  function Gestate(c: Cow, n: nat): Course
    decreases n
  {
    if n == 0 then Course(c, 0)
    else
      var g := UpdatePregnancy(c);
      var rest := Gestate(g.cow, n - 1);
      Course(rest.cow, rest.calves + (if g.calved then 1 else 0))
  }

  /** A cow that is not carrying never calves and never changes. */
  lemma {:induction false} IdleCowNeverCalves(c: Cow, n: nat)
    requires !c.pregnant
    ensures Gestate(c, n) == Course(c, 0)
    decreases n
  {
    if n > 0 {
      IdleCowNeverCalves(c, n - 1);
    }
  }

  /** A carrying cow calves exactly once, on the call where her counter
      reaches the gestation period, and is reset on that same call. */
  lemma {:induction false} CalvesExactlyOnce(c: Cow, n: nat)
    requires c.pregnant && 0 <= c.pregnancyDays < Gestation
    ensures Gestate(c, n).calves == if n >= Gestation - c.pregnancyDays then 1 else 0
    ensures n < Gestation - c.pregnancyDays ==>
      Gestate(c, n).cow == c.(pregnancyDays := c.pregnancyDays + n)
    ensures n >= Gestation - c.pregnancyDays ==>
      Gestate(c, n).cow == c.(pregnant := false, pregnancyDays := 0)
    decreases n
  {
    if n > 0 {
      var g := UpdatePregnancy(c);
      if g.calved {
        IdleCowNeverCalves(g.cow, n - 1);
      } else {
        CalvesExactlyOnce(g.cow, n - 1);
      }
    }
  }

  // -------------------------------------------------------------- milking

  /** The yield at two sample points of the formula. */
  lemma YieldSamples()
    ensures Yield(Cow(5, 100, 10.0, 4, false, 0), 1.0) == 3.0
    ensures Yield(Cow(10, 100, 0.0, 4, false, 0), 1.0) == 1.5
  {
  }

  /** The yield has no floor: an old, unfed cow gives a negative amount, and
      that amount is poured into the bucket all the same. */
  lemma YieldCanBeNegative()
    ensures Yield(Cow(30, 100, 0.0, 4, false, 0), 1.0) == -0.5
    ensures CowMilk(Cow(30, 100, 0.0, 4, false, 0), Bucket(1.0), 1.0).Ok?
    ensures CowMilk(Cow(30, 100, 0.0, 4, false, 0), Bucket(1.0), 1.0).value.bucket == Bucket(0.5)
  {
  }

  /** Each litre of food eaten since the last milking adds a tenth of a
      litre, scaled by the season, to the next yield. */
  lemma FeedingRaisesYield(c: Cow, amount: real, multiplier: real)
    ensures Yield(Eat(CowAnimal(c), amount).cow, multiplier) == Yield(c, multiplier) + amount * 0.1 * multiplier
  {
  }

  /** A calf's milking raises and changes neither the cow nor the bucket. */
  lemma CalfIsNeverMilked(c: Cow, bucket: Bucket, multiplier: real)
    requires c.age < MilkingAge
    ensures CowMilk(c, bucket, multiplier) == Err(TooYoungToMilk)
  {
  }

  /** A bucket-full failure keeps the food, so a retry yields the same amount. */
  lemma RefusedMilkingKeepsYield(c: Cow, full: Bucket, other: Bucket, multiplier: real)
    requires c.age >= MilkingAge
    requires CowMilk(c, full, multiplier).Err?
    requires CowMilk(c, other, multiplier).Ok?
    ensures Saturated(full)
    ensures CowMilk(c, other, multiplier).value.amount == Yield(c, multiplier)
  {
  }
}

=== FILE: animals.dfy ===
/** Cows and bulls: the shared cattle record (age, health, food eaten since
    the last milking), the bull's virility and recovery cooldown, and the
    cow's pregnancy counter and milk yield. */
module Animals {
  import opened Errors
  import opened Buckets

  /** Days from breeding to calving. */
  const Gestation: int := 283
  /** Cooldown days a bull needs after breeding. */
  const RecoveryDays: int := 3
  /** Virility a bull loses on each breeding. */
  const VirilityCost: int := 10
  /** Every animal starts at full health; no constructor takes it. */
  const StartingHealth: int := 100
  const StartingVirility: int := 50
  const DefaultUdders: int := 4
  /** Breeding thresholds. */
  const BullBreedingHealth: int := 60
  const BreedingVirility: int := 50
  const CowBreedingHealth: int := 70
  /** Youngest age at which the farm's breeding pre-check admits a cow or a bull. */
  const BreedingAge: int := 2
  /** Youngest age at which a cow gives milk. */
  const MilkingAge: int := 2

  datatype Cow = Cow(age: int, health: int, food: real, udders: int, pregnant: bool, pregnancyDays: int)

  datatype Bull = Bull(age: int, health: int, food: real, virility: int, recovery: int)

  datatype Animal = CowAnimal(cow: Cow) | BullAnimal(bull: Bull)

  /** A cow that is not carrying has a zero pregnancy counter. */
  predicate SoundCow(c: Cow) {
    !c.pregnant ==> c.pregnancyDays == 0
  }

  /** A bull's cooldown is never negative. */
  predicate SoundBull(b: Bull) {
    b.recovery >= 0
  }

  predicate SoundAnimal(a: Animal) {
    match a
    case CowAnimal(c) => SoundCow(c)
    case BullAnimal(b) => SoundBull(b)
  }

  /** A newly created cow; weight and breed type are not modelled, and the
      health it is given is always the fixed starting value. */
  function NewCow(age: int, udders: int): (c: Cow)
    ensures c.age == age && c.udders == udders
    ensures c.health == StartingHealth && c.food == 0.0
    ensures SoundCow(c) && CowCanBreed(c) == Ok(true)
  {
    Cow(age, StartingHealth, 0.0, udders, false, 0)
  }

  /** A newly created bull, ready to breed at once. */
  function NewBull(age: int): (b: Bull)
    ensures b.age == age && b.health == StartingHealth && b.food == 0.0
    ensures b.virility == StartingVirility
    ensures SoundBull(b) && BullCanBreed(b)
  {
    Bull(age, StartingHealth, 0.0, StartingVirility, 0)
  }

  function Food(a: Animal): real {
    match a
    case CowAnimal(c) => c.food
    case BullAnimal(b) => b.food
  }

  /** Cattle.eat: food accumulates and nothing else about the animal moves. */
  function Eat(a: Animal, amount: real): (r: Animal)
    ensures Food(r) == Food(a) + amount
    ensures r.CowAnimal? <==> a.CowAnimal?
    ensures r.CowAnimal? ==> r.cow.(food := a.cow.food) == a.cow
    ensures r.BullAnimal? ==> r.bull.(food := a.bull.food) == a.bull
    ensures SoundAnimal(r) <==> SoundAnimal(a)
  {
    match a
    case CowAnimal(c) => CowAnimal(c.(food := c.food + amount))
    case BullAnimal(b) => BullAnimal(b.(food := b.food + amount))
  }

  // ---------------------------------------------------------------- bulls

  /** Bull.can_breed: the cooldown is checked first, then health, then virility. */
  function BullCanBreed(b: Bull): (r: bool)
    ensures b.recovery > 0 ==> !r
    ensures r <==> b.recovery <= 0 && b.health >= BullBreedingHealth && b.virility >= BreedingVirility
  {
    if b.recovery > 0 then false
    else if b.health < BullBreedingHealth then false
    else b.virility >= BreedingVirility
  }

  /** Bull.breed: refuses an ineligible bull; otherwise starts the cooldown
      and spends virility. */
  function BullBreed(b: Bull): (r: Result<Bull>)
    ensures r.Ok? <==> BullCanBreed(b)
    ensures r.Err? ==> r.reason == BullNotReady
    ensures r.Ok? ==> r.value.recovery == RecoveryDays && r.value.virility == b.virility - VirilityCost
    ensures r.Ok? ==> r.value.(recovery := b.recovery, virility := b.virility) == b
    ensures r.Ok? ==> !BullCanBreed(r.value) && SoundBull(r.value)
  {
    if !BullCanBreed(b) then Err(BullNotReady)
    else Ok(b.(recovery := RecoveryDays, virility := b.virility - VirilityCost))
  }

  /** One day-tick of a bull: the cooldown counts down and stops at zero. */
  function TickBull(b: Bull): (r: Bull)
    ensures b.recovery > 0 ==> r.recovery == b.recovery - 1
    ensures b.recovery <= 0 ==> r == b
    ensures r.(recovery := b.recovery) == b
    ensures SoundBull(b) ==> SoundBull(r)
  {
    if b.recovery > 0 then b.(recovery := b.recovery - 1) else b
  }

  // ----------------------------------------------------------------- cows

  /** Cow.can_breed: raises for a pregnant or weak cow and otherwise answers
      true; it never answers false and never looks at age. */
  function CowCanBreed(c: Cow): (r: Result<bool>)
    ensures r.Ok? <==> !c.pregnant && c.health >= CowBreedingHealth
    ensures r.Ok? ==> r.value
    ensures c.pregnant ==> r == Err(AlreadyPregnant)
    ensures !c.pregnant && c.health < CowBreedingHealth ==> r == Err(CowTooWeak)
  {
    if c.pregnant then Err(AlreadyPregnant)
    else if c.health < CowBreedingHealth then Err(CowTooWeak)
    else Ok(true)
  }

  /** Both animals after Cow.breed, and whether it answered true. */
  datatype Mating = Mating(cow: Cow, bull: Bull, bred: bool)

  /** Cow.breed: an ineligible bull gives a plain false; a cow-side refusal
      raises; otherwise the cow becomes pregnant and the bull pays its cost in
      the same call.  The pregnancy counter is left as it was. */
  function CowBreed(c: Cow, b: Bull): (r: Result<Mating>)
    ensures !BullCanBreed(b) ==> r == Ok(Mating(c, b, false))
    ensures BullCanBreed(b) ==> (r.Err? <==> CowCanBreed(c).Err?)
    ensures r.Err? ==> r == CowCanBreed(c).PropagateFailure()
    ensures r.Ok? ==> (r.value.bred <==> BullCanBreed(b))
    ensures r.Ok? && r.value.bred ==>
      && r.value.cow == c.(pregnant := true)
      && BullBreed(b) == Ok(r.value.bull)
    ensures r.Ok? && !r.value.bred ==> r.value.cow == c && r.value.bull == b
    ensures r.Ok? && SoundCow(c) && SoundBull(b) ==> SoundCow(r.value.cow) && SoundBull(r.value.bull)
  {
    if !BullCanBreed(b) then Ok(Mating(c, b, false))
    else
      match CowCanBreed(c)
      case Err(e) => Err(e)
      case Ok(_) => Ok(Mating(c.(pregnant := true), BullBreed(b).value, true))
  }

  /** The cow after Cow.update_pregnancy, and whether a calf was born. */
  datatype Gestated = Gestated(cow: Cow, calved: bool)

  /** Cow.update_pregnancy: a carrying cow's counter advances; once it reaches
      the gestation period the cow calves and is reset. */
  function UpdatePregnancy(c: Cow): (r: Gestated)
    ensures !c.pregnant ==> r == Gestated(c, false)
    ensures c.pregnant ==> (r.calved <==> c.pregnancyDays + 1 >= Gestation)
    ensures r.calved ==> !r.cow.pregnant && r.cow.pregnancyDays == 0
    ensures c.pregnant && !r.calved ==> r.cow.pregnant && r.cow.pregnancyDays == c.pregnancyDays + 1
    ensures r.cow.(pregnant := c.pregnant, pregnancyDays := c.pregnancyDays) == c
    ensures SoundCow(c) ==> SoundCow(r.cow)
  {
    if c.pregnant then
      var days := c.pregnancyDays + 1;
      if days >= Gestation then Gestated(c.(pregnant := false, pregnancyDays := 0), true)
      else Gestated(c.(pregnancyDays := days), false)
    else Gestated(c, false)
  }

  /** One day-tick of a cow as the farm applies it: the counter advances with
      no check against the gestation period. */
  function TickCow(c: Cow): (r: Cow)
    ensures c.pregnant ==> r.pregnant && r.pregnancyDays == c.pregnancyDays + 1
    ensures !c.pregnant ==> r == c
    ensures r.(pregnancyDays := c.pregnancyDays) == c
    ensures SoundCow(c) ==> SoundCow(r)
  {
    if c.pregnant then c.(pregnancyDays := c.pregnancyDays + 1) else c
  }

  function TickAnimal(a: Animal): (r: Animal)
    ensures r.CowAnimal? <==> a.CowAnimal?
    ensures r.CowAnimal? ==> r.cow == TickCow(a.cow)
    ensures r.BullAnimal? ==> r.bull == TickBull(a.bull)
    ensures SoundAnimal(a) ==> SoundAnimal(r)
  {
    match a
    case CowAnimal(c) => CowAnimal(TickCow(c))
    case BullAnimal(b) => BullAnimal(TickBull(b))
  }

  // -------------------------------------------------------------- milking

  function Max(x: real, y: real): real {
    if x >= y then x else y
  }

  /** Litres a cow gives: half a litre per udder plus a tenth of the food
      eaten, less a tenth of a litre per year past five, scaled by the
      season's multiplier.  Nothing keeps it from being negative. */
  function Yield(c: Cow, multiplier: real): (r: real)
    ensures c.age <= 5 ==> r == (c.udders as real / 2.0 + c.food / 10.0) * multiplier
    ensures c.age > 5 ==> r == (c.udders as real / 2.0 + c.food / 10.0 - (c.age - 5) as real / 10.0) * multiplier
    ensures c.age <= 5 && c.udders >= 0 && c.food >= 0.0 && multiplier >= 0.0 ==> r >= 0.0
  {
    var base := c.udders as real * 0.5;
    var foodBonus := c.food * 0.1;
    var agePenalty := Max(0.0, (c.age - 5) as real * 0.1);
    (base + foodBonus - agePenalty) * multiplier
  }

  /** The cow, the bucket and the litres after a successful milking. */
  datatype Milked = Milked(cow: Cow, bucket: Bucket, amount: real)

  /** Cow.milk: a calf raises at once; otherwise the yield goes into the
      bucket first, and only when the bucket took it is the food reset. */
  function CowMilk(c: Cow, bucket: Bucket, multiplier: real): (r: Result<Milked>)
    ensures c.age < MilkingAge ==> r == Err(TooYoungToMilk)
    ensures r.Ok? <==> c.age >= MilkingAge && AddMilk(bucket, Yield(c, multiplier)).Ok?
    ensures r.Err? && c.age >= MilkingAge ==> r.reason == BucketFull
    ensures r.Ok? ==>
      && r.value.amount == Yield(c, multiplier)
      && r.value.cow == c.(food := 0.0)
      && r.value.bucket.volume == bucket.volume + r.value.amount
  {
    if c.age < MilkingAge then Err(TooYoungToMilk)
    else
      var amount := Yield(c, multiplier);
      var filled :- AddMilk(bucket, amount);
      Ok(Milked(c.(food := 0.0), filled, amount))
  }

  /** Milking dispatched on the kind of animal: a bull always raises. */
  function MilkAnimal(a: Animal, bucket: Bucket, multiplier: real): (r: Result<Milked>)
    ensures a.BullAnimal? ==> r == Err(WrongSpecies)
    ensures a.CowAnimal? ==> r == CowMilk(a.cow, bucket, multiplier)
  {
    match a
    case CowAnimal(c) => CowMilk(c, bucket, multiplier)
    case BullAnimal(_) => Err(WrongSpecies)
  }
}

=== FILE: buckets.dfy ===
/** The milk bucket: a volume of milk with a nominal capacity that is only
    enforced against buckets that are already saturated. */
module Buckets {
  import opened Errors

  /** Litres a bucket is meant to hold. */
  const Capacity: real := 5.0

  datatype Bucket = Bucket(volume: real)

  /** A new bucket, as the farm allocates it. */
  const EmptyBucket: Bucket := Bucket(0.0)

  /** A bucket with no room left at all; only such a bucket ever refuses milk. */
  predicate Saturated(b: Bucket) {
    b.volume >= Capacity
  }

  /** Pours `amount` litres in.  The overflow test only rejects when there is
      no remaining space; otherwise the whole amount goes in, even past the
      capacity. */
  function AddMilk(b: Bucket, amount: real): (r: Result<Bucket>)
    ensures r.Err? <==> Saturated(b) && b.volume + amount > Capacity
    ensures r.Err? ==> r.reason == BucketFull
    ensures r.Ok? ==> r.value.volume == b.volume + amount
  {
    if b.volume + amount > Capacity && Capacity - b.volume <= 0.0 then
      Err(BucketFull)
    else
      Ok(Bucket(b.volume + amount))
  }

  /** What emptying a bucket leaves behind and hands over. */
  datatype Emptied = Emptied(bucket: Bucket, amount: real)

  function Empty(b: Bucket): (r: Emptied)
    ensures r.bucket == EmptyBucket
    ensures r.amount == b.volume
  {
    Emptied(EmptyBucket, b.volume)
  }

  /** Litres held by a row of buckets. */
  function Volume(bs: seq<Bucket>): real
  {
    if |bs| == 0 then 0.0 else bs[0].volume + Volume(bs[1..])
  }

  lemma VolumeSingle(b: Bucket)
    ensures Volume([b]) == b.volume
  {
    assert [b][1..] == [];
  }

  lemma {:induction false} VolumeConcat(a: seq<Bucket>, b: seq<Bucket>)
    ensures Volume(a + b) == Volume(a) + Volume(b)
    decreases |a|
  {
    if |a| == 0 {
      assert a + b == b;
    } else {
      assert (a + b)[1..] == a[1..] + b;
      VolumeConcat(a[1..], b);
    }
  }

  lemma {:induction false} VolumeUpdate(bs: seq<Bucket>, k: nat, b: Bucket)
    requires k < |bs|
    ensures Volume(bs[k := b]) == Volume(bs) - bs[k].volume + b.volume
    decreases k
  {
    if k == 0 {
      assert bs[k := b][1..] == bs[1..];
    } else {
      assert bs[k := b][1..] == bs[1..][k - 1 := b];
      VolumeUpdate(bs[1..], k - 1, b);
    }
  }

  /** A prefix one bucket longer holds that bucket's volume more. */
  lemma VolumePrefixStep(bs: seq<Bucket>, k: nat)
    requires k < |bs|
    ensures Volume(bs[..k + 1]) == Volume(bs[..k]) + bs[k].volume
  {
    assert bs[..k + 1] == bs[..k] + [bs[k]];
    VolumeConcat(bs[..k], [bs[k]]);
    VolumeSingle(bs[k]);
  }

  /** A non-empty prefix holds the first bucket plus a prefix of the rest. */
  lemma VolumeHeadPrefix(bs: seq<Bucket>, k: nat)
    requires 0 < k <= |bs|
    ensures Volume(bs[..k]) == bs[0].volume + Volume(bs[1..][..k - 1])
  {
    assert bs[..k][1..] == bs[1..][..k - 1];
  }

  /** A row of new buckets holds nothing. */
  lemma {:induction false} VolumeOfEmpties(bs: seq<Bucket>)
    requires forall k :: 0 <= k < |bs| ==> bs[k] == EmptyBucket
    ensures Volume(bs) == 0.0
    decreases |bs|
  {
    if |bs| > 0 {
      VolumeOfEmpties(bs[1..]);
    }
  }

  // ------------------------------------------------ the capacity rule

  /** Emptying a bucket and pouring the milk back restores it. */
  lemma RefillAfterEmpty(b: Bucket)
    ensures AddMilk(Empty(b).bucket, Empty(b).amount) == Ok(b)
  {
  }

  /** An empty bucket takes any amount, however far past the capacity. */
  lemma EmptyBucketAcceptsAnything(amount: real)
    ensures AddMilk(EmptyBucket, amount) == Ok(Bucket(amount))
  {
  }

  /** A bucket with room left takes the whole amount and may end past capacity. */
  lemma BucketMayOverflow()
    ensures AddMilk(Bucket(4.5), 0.3) == Ok(Bucket(4.8))
    ensures AddMilk(Bucket(4.9), 1.0) == Ok(Bucket(5.9))
  {
  }

  /** A bucket filled exactly to capacity refuses every positive amount. */
  lemma FullBucketRefuses(b: Bucket, amount: real)
    requires b.volume == Capacity
    ensures AddMilk(b, amount).Err? <==> amount > 0.0
  {
  }

  /** A bucket already past capacity refuses even an empty pour. */
  lemma OverfullBucketRefusesEmptyPour(b: Bucket)
    requires b.volume > Capacity
    ensures AddMilk(b, 0.0) == Err(BucketFull)
  {
  }
}

=== FILE: errors.dfy ===
/** Outcomes of the farm's operations.

    Every failure in the farm is raised as one plain exception whose message
    says what went wrong.  The model keeps a single error variant and tags it
    with the reason the message gives, so that callers (and lemmas) can tell
    which check fired. */
module Errors {

  /** Why an operation raised. */
  datatype Reason =
    | TooYoungToMilk     // Cow.milk on a cow younger than two
    | WrongSpecies       // Bull.milk: a bull cannot be milked
    | BullNotReady       // Bull.breed on a bull that cannot breed
    | AlreadyPregnant    // Cow.can_breed, and breed_cattle, on a pregnant cow
    | CowTooWeak         // Cow.can_breed, and breed_cattle, on a cow with health below 70
    | BucketFull         // MilkBucket.add_milk on a saturated bucket
    | StorageFull        // sell_milk when the tank would pass its capacity
    | NotCattle          // add_cattle with something that is neither cow nor bull
    | UnknownSeason      // milk_all_cows with a season missing from the table
    | NotACow            // breed_cattle: first animal is not a cow
    | NotABull           // breed_cattle: second animal is not a bull
    | CowTooYoung        // breed_cattle: cow younger than two
    | BullTooYoung       // breed_cattle: bull younger than two
    | BullNotVirile      // breed_cattle: bull virility below 50
    | NoCurrentSeason    // breed_cattle reads a season attribute the farm never sets

  /** Either the value an operation returns or the reason it raised. */
  datatype Result<+T> = Ok(value: T) | Err(reason: Reason) {

    predicate IsFailure() {
      Err?
    }

    function PropagateFailure<U>(): Result<U>
      requires Err?
    {
      Err(reason)
    }

    function Extract(): T
      requires Ok?
    {
      value
    }
  }
}

=== FILE: farm_proofs.dfy ===
/** Properties of the farm across calls: the milking loop's termination and
    divergence, the sale's overflow policy, milk counted twice, the day tick
    and the breeding pre-check. */
module FarmProofs {
  import opened Errors
  import opened Buckets
  import opened Animals
  import opened Farms

  // ------------------------------------------------------ the milking loop

  /** For a cow old enough to milk, the loop run with enough turns settles on
      exactly the delivery the unbounded loop gives. */
  lemma {:induction false} MatureCowSettles(a: Attempt, multiplier: real, fuel: nat)
    requires a.cow.age >= MilkingAge
    requires a.index <= |a.buckets|
    requires fuel > |a.buckets| - a.index
    ensures RunAttempts(a, multiplier, fuel) == Settled(MilkCow(a, multiplier))
    decreases fuel
  {
    match TryBucket(a, multiplier)
    case Accepted(d) =>
    case Rejected(next) =>
      MatureCowSettles(next, multiplier, fuel - 1);
  }

  /** For a calf the loop never settles: every turn is refused, the index
      moves on and a fresh bucket is appended once the index is past the
      end, so however many turns it runs it has only grown the bucket row. */
  lemma {:induction false} CalfNeverSettles(a: Attempt, multiplier: real, fuel: nat)
    requires a.cow.age < MilkingAge
    requires a.index <= |a.buckets|
    ensures RunAttempts(a, multiplier, fuel).Pending?
    ensures RunAttempts(a, multiplier, fuel).attempt.index == a.index + fuel
    ensures |RunAttempts(a, multiplier, fuel).attempt.buckets|
            == if a.index + fuel > |a.buckets| then a.index + fuel else |a.buckets|
    ensures RunAttempts(a, multiplier, fuel).attempt.buckets[..|a.buckets|] == a.buckets
    decreases fuel
  {
    if fuel > 0 {
      var next := TryBucket(a, multiplier).next;
      CalfNeverSettles(next, multiplier, fuel - 1);
      assert next.buckets[..|a.buckets|] == a.buckets;
      var end := RunAttempts(a, multiplier, fuel).attempt.buckets;
      assert end[..|a.buckets|] == end[..|next.buckets|][..|a.buckets|];
    }
  }

  // ------------------------------------------ the shared index and routing

  /** The index animal `j` of the pass starts from: the pass's starting index
      for the first animal, the previous animal's stop for every later one. */
  function StartOf(stops: seq<nat>, i: nat, j: nat): nat
    requires j <= |stops|
  {
    if j == 0 then i else stops[j - 1]
  }

  /** A bucket's volume before the pass: its own for an existing bucket, none
      for one appended later. */
  function Base(bs: seq<Bucket>, k: nat): real {
    if k < |bs| then bs[k].volume else 0.0
  }

  /** Litres the first `j` animals of the roster pour into bucket `k`. */
  function Poured(cattle: seq<Animal>, stops: seq<nat>, multiplier: real, j: nat, k: nat): real
    requires |stops| == |cattle| && j <= |cattle|
    decreases j
  {
    if j == 0 then 0.0
    else
      (if cattle[0].CowAnimal? && stops[0] == k then Yield(cattle[0].cow, multiplier) else 0.0)
      + Poured(cattle[1..], stops[1..], multiplier, j - 1, k)
  }

  /** Bucket `k` as animal `j` of the pass finds it. */
  function BucketBefore(bs: seq<Bucket>, cattle: seq<Animal>, stops: seq<nat>, multiplier: real, j: nat, k: nat): Bucket
    requires |stops| == |cattle| && j <= |cattle|
  {
    Bucket(Base(bs, k) + Poured(cattle, stops, multiplier, j, k))
  }

  /** Cow `j` searched from where the previous animal left the index: every
      bucket she skipped refused her yield as she found it, and the bucket she
      stopped at accepted it. */
  predicate RoutedCow(bs: seq<Bucket>, cattle: seq<Animal>, stops: seq<nat>, multiplier: real, i: nat, j: nat)
    requires |stops| == |cattle| && j < |cattle| && cattle[j].CowAnimal?
  {
    var y := Yield(cattle[j].cow, multiplier);
    && (forall k :: StartOf(stops, i, j) <= k < stops[j] ==>
          AddMilk(BucketBefore(bs, cattle, stops, multiplier, j, k), y).Err?)
    && AddMilk(BucketBefore(bs, cattle, stops, multiplier, j, stops[j]), y).Ok?
  }

  /** One cow's delivery adds her yield to the bucket she stopped at and to no other. */
  lemma BaseAfterDelivery(a: Attempt, multiplier: real, k: nat)
    requires a.cow.age >= MilkingAge && a.index <= |a.buckets|
    ensures var d := MilkCow(a, multiplier);
      Base(d.buckets, k) == Base(a.buckets, k) + (if k == d.index then d.amount else 0.0)
  {
  }

  /** Where the first animal of the roster leaves the index. */
  function FirstStop(cattle: seq<Animal>, bs: seq<Bucket>, i: nat, multiplier: real): (r: nat)
    requires AllMilkable(cattle) && i <= |bs| && 0 < |cattle|
  {
    if cattle[0].CowAnimal? then MilkCow(Attempt(cattle[0].cow, bs, i), multiplier).index else i
  }

  /** The buckets the first animal of the roster leaves behind. */
  function FirstBuckets(cattle: seq<Animal>, bs: seq<Bucket>, i: nat, multiplier: real): (r: seq<Bucket>)
    requires AllMilkable(cattle) && i <= |bs| && 0 < |cattle|
    ensures FirstStop(cattle, bs, i, multiplier) <= |r|
    ensures cattle[0].CowAnimal? ==> FirstStop(cattle, bs, i, multiplier) < |r|
  {
    if cattle[0].CowAnimal? then MilkCow(Attempt(cattle[0].cow, bs, i), multiplier).buckets else bs
  }

  /** The tank after the first animal of the roster. */
  function FirstStorage(cattle: seq<Animal>, bs: seq<Bucket>, i: nat, storage: real, multiplier: real): real
    requires AllMilkable(cattle) && i <= |bs| && 0 < |cattle|
  {
    if cattle[0].CowAnimal? then storage + MilkCow(Attempt(cattle[0].cow, bs, i), multiplier).amount else storage
  }

  /** The pass over the rest of the roster, from where the first animal left it. */
  function RestPass(cattle: seq<Animal>, bs: seq<Bucket>, i: nat, storage: real, multiplier: real): Pass
    requires AllMilkable(cattle) && i <= |bs| && 0 < |cattle|
  {
    MilkPass(cattle[1..], FirstBuckets(cattle, bs, i, multiplier), FirstStop(cattle, bs, i, multiplier),
             FirstStorage(cattle, bs, i, storage, multiplier), multiplier)
  }

  /** A pass is its first animal's step followed by the pass over the rest. */
  lemma PassUnfolds(cattle: seq<Animal>, bs: seq<Bucket>, i: nat, storage: real, multiplier: real)
    requires AllMilkable(cattle) && i <= |bs| && 0 < |cattle|
    ensures var r := MilkPass(cattle, bs, i, storage, multiplier);
      var rest := RestPass(cattle, bs, i, storage, multiplier);
      && r.stops == [FirstStop(cattle, bs, i, multiplier)] + rest.stops
      && r.buckets == rest.buckets
      && r.index == rest.index
  {
  }

  /** Animal `j` of a pass is animal `j - 1` of the pass over the rest, and
      starts where it does there. */
  lemma StopsShift(cattle: seq<Animal>, bs: seq<Bucket>, i: nat, storage: real, multiplier: real, j: nat)
    requires AllMilkable(cattle) && i <= |bs| && 0 < j <= |cattle|
    ensures var r := MilkPass(cattle, bs, i, storage, multiplier);
      var rest := RestPass(cattle, bs, i, storage, multiplier);
      && StartOf(r.stops, i, j) == StartOf(rest.stops, FirstStop(cattle, bs, i, multiplier), j - 1)
      && (j < |cattle| ==> r.stops[j] == rest.stops[j - 1] && cattle[j] == cattle[1..][j - 1])
  {
    var r := MilkPass(cattle, bs, i, storage, multiplier);
    var rest := RestPass(cattle, bs, i, storage, multiplier);
    PassUnfolds(cattle, bs, i, storage, multiplier);
    assert r.stops[j - 1] == ([FirstStop(cattle, bs, i, multiplier)] + rest.stops)[j - 1];
    if j < |cattle| {
      assert r.stops[j] == ([FirstStop(cattle, bs, i, multiplier)] + rest.stops)[j];
    }
  }

  /** The bucket index is shared: each animal starts where the previous one
      stopped, it never goes back, a bull leaves it where it was, every cow
      stops inside the final row, and the pass ends at the last stop. */
  lemma {:induction false} MilkPassSharesIndex(cattle: seq<Animal>, bs: seq<Bucket>, i: nat, storage: real, multiplier: real)
    requires AllMilkable(cattle) && i <= |bs|
    ensures var r := MilkPass(cattle, bs, i, storage, multiplier);
      && (forall j :: 0 <= j < |cattle| ==> StartOf(r.stops, i, j) <= r.stops[j])
      && (forall j :: 0 <= j < |cattle| && cattle[j].BullAnimal? ==> r.stops[j] == StartOf(r.stops, i, j))
      && (forall j :: 0 <= j < |cattle| && cattle[j].CowAnimal? ==> r.stops[j] < |r.buckets|)
      && r.index == StartOf(r.stops, i, |cattle|)
    decreases |cattle|
  {
    if |cattle| > 0 {
      var r := MilkPass(cattle, bs, i, storage, multiplier);
      var first := FirstStop(cattle, bs, i, multiplier);
      var rest := RestPass(cattle, bs, i, storage, multiplier);
      PassUnfolds(cattle, bs, i, storage, multiplier);
      MilkPassSharesIndex(cattle[1..], FirstBuckets(cattle, bs, i, multiplier), first,
                          FirstStorage(cattle, bs, i, storage, multiplier), multiplier);
      forall j | 0 <= j < |cattle|
        ensures StartOf(r.stops, i, j) <= r.stops[j]
        ensures cattle[j].BullAnimal? ==> r.stops[j] == StartOf(r.stops, i, j)
        ensures cattle[j].CowAnimal? ==> r.stops[j] < |r.buckets|
      {
        if j > 0 {
          StopsShift(cattle, bs, i, storage, multiplier, j);
        }
      }
      StopsShift(cattle, bs, i, storage, multiplier, |cattle|);
    }
  }

  /** Dropping the first animal of the roster: bucket `k` as animal `j + 1`
      finds it is bucket `k` as animal `j` of the rest finds it, starting
      from the buckets the first animal left. */
  lemma BucketBeforeShift(cattle: seq<Animal>, bs: seq<Bucket>, i: nat, storage: real, multiplier: real, j: nat, k: nat)
    requires AllMilkable(cattle) && i <= |bs| && 0 < |cattle| && j < |cattle|
    ensures var r := MilkPass(cattle, bs, i, storage, multiplier);
      var rest := RestPass(cattle, bs, i, storage, multiplier);
      BucketBefore(bs, cattle, r.stops, multiplier, j + 1, k)
        == BucketBefore(FirstBuckets(cattle, bs, i, multiplier), cattle[1..], rest.stops, multiplier, j, k)
  {
    PassUnfolds(cattle, bs, i, storage, multiplier);
    if cattle[0].CowAnimal? {
      BaseAfterDelivery(Attempt(cattle[0].cow, bs, i), multiplier, k);
    }
  }

  /** The first cow of a pass finds every bucket as the pass started. */
  lemma {:induction false} FirstCowRoutes(cattle: seq<Animal>, bs: seq<Bucket>, i: nat, storage: real, multiplier: real)
    requires AllMilkable(cattle) && i <= |bs|
    requires 0 < |cattle| && cattle[0].CowAnimal?
    ensures RoutedCow(bs, cattle, MilkPass(cattle, bs, i, storage, multiplier).stops, multiplier, i, 0)
  {
    var stops := MilkPass(cattle, bs, i, storage, multiplier).stops;
    var y := Yield(cattle[0].cow, multiplier);
    var d := MilkCow(Attempt(cattle[0].cow, bs, i), multiplier);
    MilkCowSearch(Attempt(cattle[0].cow, bs, i), multiplier);
    PassUnfolds(cattle, bs, i, storage, multiplier);
    assert stops[0] == d.index;
    forall k | i <= k < d.index
      ensures AddMilk(BucketBefore(bs, cattle, stops, multiplier, 0, k), y).Err?
    {
      assert BucketBefore(bs, cattle, stops, multiplier, 0, k) == bs[k];
    }
    if d.index < |bs| {
      assert BucketBefore(bs, cattle, stops, multiplier, 0, d.index) == bs[d.index];
    } else {
      assert BucketBefore(bs, cattle, stops, multiplier, 0, d.index) == EmptyBucket;
    }
  }

  /** Routing seen from the second animal on: if the first animal's pour
      turned the buckets `bs` into `after` and left the index at `first`, a
      cow routed within the rest of the roster is routed within the whole. */
  lemma RoutedShift(bs: seq<Bucket>, after: seq<Bucket>, cattle: seq<Animal>, stops: seq<nat>, multiplier: real, i: nat, j: nat)
    requires |stops| == |cattle| && 0 < j < |cattle| && cattle[j].CowAnimal?
    requires forall k: nat ::
      Base(after, k) == Base(bs, k) + (if cattle[0].CowAnimal? && k == stops[0] then Yield(cattle[0].cow, multiplier) else 0.0)
    requires RoutedCow(after, cattle[1..], stops[1..], multiplier, stops[0], j - 1)
    ensures RoutedCow(bs, cattle, stops, multiplier, i, j)
  {
    assert cattle[j] == cattle[1..][j - 1] && stops[j] == stops[1..][j - 1];
    assert StartOf(stops, i, j) == StartOf(stops[1..], stops[0], j - 1);
    forall k: nat
      ensures BucketBefore(bs, cattle, stops, multiplier, j, k) == BucketBefore(after, cattle[1..], stops[1..], multiplier, j - 1, k)
    {
      assert Base(after, k) ==
        Base(bs, k) + (if cattle[0].CowAnimal? && k == stops[0] then Yield(cattle[0].cow, multiplier) else 0.0);
    }
  }

  /** Each cow's milk goes where the shared index and the bucket rule send it. */
  lemma {:induction false} MilkPassRoutes(cattle: seq<Animal>, bs: seq<Bucket>, i: nat, storage: real, multiplier: real, j: nat)
    requires AllMilkable(cattle) && i <= |bs|
    requires j < |cattle| && cattle[j].CowAnimal?
    ensures RoutedCow(bs, cattle, MilkPass(cattle, bs, i, storage, multiplier).stops, multiplier, i, j)
    decreases |cattle|
  {
    if j == 0 {
      FirstCowRoutes(cattle, bs, i, storage, multiplier);
    } else {
      var stops := MilkPass(cattle, bs, i, storage, multiplier).stops;
      var after := FirstBuckets(cattle, bs, i, multiplier);
      var rest := RestPass(cattle, bs, i, storage, multiplier);
      PassUnfolds(cattle, bs, i, storage, multiplier);
      assert stops[1..] == rest.stops && stops[0] == FirstStop(cattle, bs, i, multiplier);
      assert cattle[j] == cattle[1..][j - 1];
      MilkPassRoutes(cattle[1..], after, FirstStop(cattle, bs, i, multiplier),
                     FirstStorage(cattle, bs, i, storage, multiplier), multiplier, j - 1);
      forall k: nat
        ensures Base(after, k) ==
          Base(bs, k) + (if cattle[0].CowAnimal? && k == stops[0] then Yield(cattle[0].cow, multiplier) else 0.0)
      {
        if cattle[0].CowAnimal? {
          BaseAfterDelivery(Attempt(cattle[0].cow, bs, i), multiplier, k);
        }
      }
      RoutedShift(bs, after, cattle, stops, multiplier, i, j);
    }
  }

  /** After the pass, every bucket holds its starting volume plus the yields
      of exactly the cows that stopped at it. */
  lemma {:induction false} MilkPassFills(cattle: seq<Animal>, bs: seq<Bucket>, i: nat, storage: real, multiplier: real)
    requires AllMilkable(cattle) && i <= |bs|
    ensures var r := MilkPass(cattle, bs, i, storage, multiplier);
      forall k :: 0 <= k < |r.buckets| ==> r.buckets[k] == BucketBefore(bs, cattle, r.stops, multiplier, |cattle|, k)
    decreases |cattle|
  {
    var r := MilkPass(cattle, bs, i, storage, multiplier);
    if |cattle| == 0 {
      forall k | 0 <= k < |r.buckets|
        ensures r.buckets[k] == BucketBefore(bs, cattle, r.stops, multiplier, 0, k)
      {
        assert Bucket(bs[k].volume) == bs[k];
      }
    } else {
      var after := FirstBuckets(cattle, bs, i, multiplier);
      var rest := RestPass(cattle, bs, i, storage, multiplier);
      PassUnfolds(cattle, bs, i, storage, multiplier);
      MilkPassFills(cattle[1..], after, FirstStop(cattle, bs, i, multiplier), FirstStorage(cattle, bs, i, storage, multiplier), multiplier);
      assert rest == MilkPass(cattle[1..], after, FirstStop(cattle, bs, i, multiplier), FirstStorage(cattle, bs, i, storage, multiplier), multiplier);
      assert forall k :: 0 <= k < |rest.buckets| ==> rest.buckets[k] == BucketBefore(after, cattle[1..], rest.stops, multiplier, |cattle[1..]|, k);
      forall k | 0 <= k < |r.buckets|
        ensures r.buckets[k] == BucketBefore(bs, cattle, r.stops, multiplier, |cattle|, k)
      {
        assert r.buckets[k] == rest.buckets[k];
        assert |cattle[1..]| == |cattle| - 1;
        assert rest.buckets[k] == BucketBefore(after, cattle[1..], rest.stops, multiplier, |cattle| - 1, k);
        BucketBeforeShift(cattle, bs, i, storage, multiplier, |cattle| - 1, k);
      }
    }
  }

  /** A pass that starts inside the row, or milks any cow, ends inside it. */
  lemma {:induction false} MilkPassEndsInRow(cattle: seq<Animal>, bs: seq<Bucket>, i: nat, storage: real, multiplier: real)
    requires AllMilkable(cattle) && i <= |bs|
    ensures var r := MilkPass(cattle, bs, i, storage, multiplier);
      (i < |bs| || exists j :: 0 <= j < |cattle| && cattle[j].CowAnimal?) ==> r.index < |r.buckets|
    decreases |cattle|
  {
    if |cattle| > 0 {
      var r := MilkPass(cattle, bs, i, storage, multiplier);
      var first := FirstStop(cattle, bs, i, multiplier);
      var after := FirstBuckets(cattle, bs, i, multiplier);
      PassUnfolds(cattle, bs, i, storage, multiplier);
      MilkPassEndsInRow(cattle[1..], after, first, FirstStorage(cattle, bs, i, storage, multiplier), multiplier);
      if exists j :: 0 <= j < |cattle| && cattle[j].CowAnimal? {
        var j :| 0 <= j < |cattle| && cattle[j].CowAnimal?;
        if j > 0 {
          assert cattle[1..][j - 1].CowAnimal?;
        }
      }
    }
  }

  /** A pass appends buckets only through its cows: when the row has grown,
      the pass ends on its last bucket, and that bucket is a cow's stop. */
  lemma {:induction false} MilkPassRowEnds(cattle: seq<Animal>, bs: seq<Bucket>, i: nat, storage: real, multiplier: real)
    requires AllMilkable(cattle) && i <= |bs|
    ensures var r := MilkPass(cattle, bs, i, storage, multiplier);
      |r.buckets| > |bs| ==>
        && r.index + 1 == |r.buckets|
        && exists j :: 0 <= j < |cattle| && cattle[j].CowAnimal? && r.stops[j] == r.index
    decreases |cattle|
  {
    if |cattle| > 0 {
      var r := MilkPass(cattle, bs, i, storage, multiplier);
      var first := FirstStop(cattle, bs, i, multiplier);
      var after := FirstBuckets(cattle, bs, i, multiplier);
      var st := FirstStorage(cattle, bs, i, storage, multiplier);
      var rest := RestPass(cattle, bs, i, storage, multiplier);
      PassUnfolds(cattle, bs, i, storage, multiplier);
      MilkPassRowEnds(cattle[1..], after, first, st, multiplier);
      if |r.buckets| > |bs| {
        if |rest.buckets| > |after| {
          var j' :| 0 <= j' < |cattle[1..]| && cattle[1..][j'].CowAnimal? && rest.stops[j'] == rest.index;
          assert cattle[j' + 1].CowAnimal? && r.stops[j' + 1] == r.index;
        } else {
          // The first animal grew the row: it is a cow, her stop is the
          // appended bucket, and no later animal moves the index past it.
          var d := MilkCow(Attempt(cattle[0].cow, bs, i), multiplier);
          assert cattle[0].CowAnimal? && d.index == |bs|;
          MilkPassEndsInRow(cattle[1..], after, first, st, multiplier);
          assert r.stops[0] == r.index;
        }
      }
    }
  }

  /** milk_all_cows rotates one index, from bucket 0, through the whole
      roster: there are stop indices, one per animal, that never go back, with
      each cow's milk in the first bucket from the previous stop that accepts
      it, and each bucket ending with its own milk plus that of the cows that
      stopped there.  If the row has grown, its last bucket is some cow's stop. */
  lemma MilkAllCowsRoutes(f: Farm, season: string) returns (stops: seq<nat>)
    requires season in Seasons && AllMilkable(f.cattle)
    ensures var m := SeasonMultiplier(season).value;
      var g := MilkAllCows(f, season).value;
      && |stops| == |f.cattle|
      && (forall j :: 0 <= j < |f.cattle| ==> StartOf(stops, 0, j) <= stops[j])
      && (forall j :: 0 <= j < |f.cattle| && f.cattle[j].BullAnimal? ==> stops[j] == StartOf(stops, 0, j))
      && (forall j :: 0 <= j < |f.cattle| && f.cattle[j].CowAnimal? ==>
            stops[j] < |g.buckets| && RoutedCow(f.buckets, f.cattle, stops, m, 0, j))
      && (forall k :: 0 <= k < |g.buckets| ==> g.buckets[k] == BucketBefore(f.buckets, f.cattle, stops, m, |f.cattle|, k))
      && (|g.buckets| > |f.buckets| ==>
            exists j :: 0 <= j < |f.cattle| && f.cattle[j].CowAnimal? && stops[j] + 1 == |g.buckets|)
  {
    var m := SeasonMultiplier(season).value;
    var p := MilkPass(f.cattle, f.buckets, 0, f.storage, m);
    stops := p.stops;
    MilkPassSharesIndex(f.cattle, f.buckets, 0, f.storage, m);
    MilkPassFills(f.cattle, f.buckets, 0, f.storage, m);
    MilkPassRowEnds(f.cattle, f.buckets, 0, f.storage, m);
    forall j | 0 <= j < |f.cattle| && f.cattle[j].CowAnimal?
      ensures RoutedCow(f.buckets, f.cattle, stops, m, 0, j)
    {
      MilkPassRoutes(f.cattle, f.buckets, 0, f.storage, m, j);
    }
  }

  /** One three-year-old cow in summer fills the first of three empty buckets
      with her two litres, in place, and leaves the other two alone. */
  lemma FirstBucketTakesTheMilk()
    ensures var f := Farm("farm", [CowAnimal(NewCow(3, 4))], 0.0, [EmptyBucket, EmptyBucket, EmptyBucket]);
      && MilkAllCows(f, "summer").Ok?
      && MilkAllCows(f, "summer").value.buckets == [Bucket(2.0), EmptyBucket, EmptyBucket]
  {
    var f := Farm("farm", [CowAnimal(NewCow(3, 4))], 0.0, [EmptyBucket, EmptyBucket, EmptyBucket]);
    var stops := MilkAllCowsRoutes(f, "summer");
    assert BucketBefore(f.buckets, f.cattle, stops, 1.0, 0, 0) == EmptyBucket;
  }

  /** A saturated first bucket turns a positive yield away to the empty
      bucket after it. */
  lemma FullBucketPassesTheMilkOn(c: Cow, full: Bucket, multiplier: real)
    requires c.age >= MilkingAge && Saturated(full) && Yield(c, multiplier) > 0.0
    ensures var d := MilkCow(Attempt(c, [full, EmptyBucket], 0), multiplier);
      d.index == 1 && d.buckets == [full, Bucket(Yield(c, multiplier))]
  {
    var bs := [full, EmptyBucket];
    var y := Yield(c, multiplier);
    MilkCowSearch(Attempt(c, bs, 0), multiplier);
    assert AddMilk(bs[0], y).Err? && AddMilk(bs[1], y).Ok?;
  }

  /** A bucket that accepts a cow's yield where she starts keeps her there. */
  lemma StartingBucketTakesTheMilk(c: Cow, bs: seq<Bucket>, i: nat, multiplier: real)
    requires c.age >= MilkingAge && i < |bs| && AddMilk(bs[i], Yield(c, multiplier)).Ok?
    ensures MilkCow(Attempt(c, bs, i), multiplier).index == i
  {
    MilkCowSearch(Attempt(c, bs, i), multiplier);
  }

  /** The second cow starts at the bucket the first one stopped at: when a
      saturated first bucket turns the first cow away to bucket 1, the second
      cow's search begins at bucket 1, not at bucket 0. */
  lemma NextCowStartsWhereLastStopped(first: Cow, second: Cow, full: Bucket, multiplier: real)
    requires first.age >= MilkingAge && second.age >= MilkingAge
    requires Saturated(full) && Yield(first, multiplier) > 0.0
    requires AddMilk(Bucket(Yield(first, multiplier)), Yield(second, multiplier)).Ok?
    ensures MilkPass([CowAnimal(first), CowAnimal(second)], [full, EmptyBucket], 0, 0.0, multiplier).stops == [1, 1]
  {
    var cattle := [CowAnimal(first), CowAnimal(second)];
    var bs := [full, EmptyBucket];
    var tail := [CowAnimal(second)];
    var y := Yield(first, multiplier);
    var bs1 := [full, Bucket(y)];
    assert AllMilkable(cattle) && AllMilkable(tail);
    assert FirstStop(cattle, bs, 0, multiplier) == 1
        && RestPass(cattle, bs, 0, 0.0, multiplier) == MilkPass(tail, bs1, 1, y, multiplier) by {
      FullBucketPassesTheMilkOn(first, full, multiplier);
      assert cattle[1..] == tail;
    }
    assert MilkPass(tail, bs1, 1, y, multiplier).stops == [1] by {
      StartingBucketTakesTheMilk(second, bs1, 1, multiplier);
      PassUnfolds(tail, bs1, 1, y, multiplier);
      assert RestPass(tail, bs1, 1, y, multiplier).stops == [];
    }
    PassUnfolds(cattle, bs, 0, 0.0, multiplier);
  }

  // ------------------------------------------------------------- the sale

  /** Storage already past the tank's capacity makes the sale fail at the
      first bucket, even when that bucket is empty. */
  lemma FullTankRefusesSale(f: Farm, price: real)
    requires f.storage > StorageCapacity && |f.buckets| > 0 && f.buckets[0].volume >= 0.0
    ensures SellMilk(f, price).revenue == Err(StorageFull)
    ensures SellMilk(f, price).farm.storage == f.storage
    ensures SellMilk(f, price).farm.buckets == [EmptyBucket] + f.buckets[1..]
  {
    VolumeHeadPrefix(f.buckets, 1);
    assert f.buckets[1..][..0] == [];
  }

  /** A failed sale: the buckets before the offending one are in storage, the
      offending bucket's milk is gone, later buckets are untouched. */
  lemma SaleOverflow(f: Farm, price: real) returns (k: nat)
    requires SellMilk(f, price).revenue.Err?
    ensures k < |f.buckets|
    ensures f.storage + Volume(f.buckets[..k + 1]) > StorageCapacity
    ensures SellMilk(f, price).farm.storage == f.storage + Volume(f.buckets[..k])
    ensures forall j :: 0 <= j <= k ==> SellMilk(f, price).farm.buckets[j] == EmptyBucket
    ensures SellMilk(f, price).farm.buckets[k + 1..] == f.buckets[k + 1..]
    ensures SellMilk(f, price).farm.storage + Volume(SellMilk(f, price).farm.buckets) + f.buckets[k].volume
            == f.storage + Volume(f.buckets)
  {
    k := DrainOverflow(f.buckets, f.storage);
  }

  /** Two concrete sales from a tank at 95 litres: ten litres in the first
      bucket are emptied and lost with storage still at 95; three then seven
      litres leave storage at 98 and the third bucket untouched. */
  lemma SaleOverflowSamples(price: real)
    ensures var s := SellMilk(Farm("", [], 95.0, [Bucket(10.0), EmptyBucket, EmptyBucket]), price);
      s.revenue == Err(StorageFull) && s.farm.storage == 95.0
      && s.farm.buckets == [EmptyBucket, EmptyBucket, EmptyBucket]
    ensures var s := SellMilk(Farm("", [], 95.0, [Bucket(3.0), Bucket(7.0), Bucket(1.0)]), price);
      s.revenue == Err(StorageFull) && s.farm.storage == 98.0
      && s.farm.buckets == [EmptyBucket, EmptyBucket, Bucket(1.0)]
  {
  }

  /** Milk is counted twice: after a milking pass from an empty farm, a
      successful sale is paid for every litre both in storage and in the
      buckets. */
  lemma MilkThenSellCountsTwice(f: Farm, season: string, price: real)
    requires f.storage == 0.0 && Volume(f.buckets) == 0.0
    requires season in Seasons && AllMilkable(f.cattle)
    ensures var milked := MilkAllCows(f, season).value;
      var sale := SellMilk(milked, price);
      sale.revenue.Ok? ==>
        sale.revenue.value == 2.0 * TotalYield(f.cattle, SeasonMultiplier(season).value) * price
  {
    var t := TotalYield(f.cattle, SeasonMultiplier(season).value);
    var milked := MilkAllCows(f, season).value;
    assert milked.storage == t && Volume(milked.buckets) == t;
    var sale := SellMilk(milked, price);
    if sale.revenue.Ok? {
      assert sale.revenue.value == (t + t) * price;
    }
  }

  // ---------------------------------------------------------- the day tick

  function AdvanceDays(f: Farm, n: nat): Farm
    decreases n
  {
    if n == 0 then f else AdvanceDays(UpdateDay(f), n - 1)
  }

  /** Days passing keep the roster's length and the kind of each animal. */
  lemma {:induction false} AdvanceDaysKeepsRoster(f: Farm, n: nat)
    ensures |AdvanceDays(f, n).cattle| == |f.cattle|
    ensures forall k :: 0 <= k < |f.cattle| ==>
      AdvanceDays(f, n).cattle[k].CowAnimal? == f.cattle[k].CowAnimal?
    decreases n
  {
    if n > 0 {
      AdvanceDaysKeepsRoster(UpdateDay(f), n - 1);
    }
  }

  /** A bull's cooldown counts down one per day and then stays at zero;
      nothing else about the bull moves. */
  lemma {:induction false} CooldownAfterDays(f: Farm, n: nat, k: nat)
    requires k < |f.cattle| && f.cattle[k].BullAnimal? && f.cattle[k].bull.recovery >= 0
    ensures k < |AdvanceDays(f, n).cattle| && AdvanceDays(f, n).cattle[k].BullAnimal?
    ensures var b := f.cattle[k].bull;
      AdvanceDays(f, n).cattle[k].bull
        == b.(recovery := if b.recovery > n then b.recovery - n else 0)
    decreases n
  {
    AdvanceDaysKeepsRoster(f, n);
    if n > 0 {
      CooldownAfterDays(UpdateDay(f), n - 1, k);
    }
  }

  /** A carrying cow's counter rises one per day with no calving, so it runs
      past the gestation period under the day tick alone. */
  lemma {:induction false} PregnancyOutlastsGestation(f: Farm, n: nat, k: nat)
    requires k < |f.cattle| && f.cattle[k].CowAnimal? && f.cattle[k].cow.pregnant
    ensures k < |AdvanceDays(f, n).cattle| && AdvanceDays(f, n).cattle[k].CowAnimal?
    ensures var c := f.cattle[k].cow;
      AdvanceDays(f, n).cattle[k].cow == c.(pregnancyDays := c.pregnancyDays + n)
    decreases n
  {
    AdvanceDaysKeepsRoster(f, n);
    if n > 0 {
      PregnancyOutlastsGestation(UpdateDay(f), n - 1, k);
    }
  }

  // ------------------------------------------------------ breeding check

  /** The pre-check's answer does not depend on the bull's cooldown or health. */
  lemma BreedCheckIgnoresBullReadiness(cow: Creature, b: Bull, recovery: int, health: int)
    ensures BreedCattle(cow, Livestock(BullAnimal(b)))
         == BreedCattle(cow, Livestock(BullAnimal(b.(recovery := recovery, health := health))))
  {
  }

  /** The pre-check and Cow.breed disagree both ways: a cooling bull passes
      every animal check yet Cow.breed refuses it, and a calf fails the
      pre-check yet Cow.breed makes her pregnant. */
  lemma BreedCheckDisagreesWithBreed()
    ensures var c := NewCow(3, DefaultUdders);
      var b := NewBull(3).(recovery := 2);
      && BreedCattle(Livestock(CowAnimal(c)), Livestock(BullAnimal(b))) == Err(NoCurrentSeason)
      && CowBreed(c, b) == Ok(Mating(c, b, false))
    ensures var calf := NewCow(1, DefaultUdders);
      var b := NewBull(3);
      && BreedCattle(Livestock(CowAnimal(calf)), Livestock(BullAnimal(b))) == Err(CowTooYoung)
      && CowBreed(calf, b).Ok? && CowBreed(calf, b).value.bred
  {
  }

  /** Whenever Cow.breed raises on the cow's side, the pre-check fails on the
      same animal for the same reason. */
  lemma CowSideRefusalsAgree(c: Cow, b: Bull)
    requires CowBreed(c, b).Err?
    ensures BreedCattle(Livestock(CowAnimal(c)), Livestock(BullAnimal(b))) == CowBreed(c, b).PropagateFailure()
  {
  }
}

=== FILE: farms.dfy ===
/** The farm: a roster of cattle, a row of milk buckets and a storage tank,
    with the milking pass, the sale, the breeding pre-check and the day tick. */
module Farms {
  import opened Errors
  import opened Buckets
  import opened Animals

  /** Litres the storage tank holds. */
  const StorageCapacity: real := 100.0
  /** Buckets a new farm starts with. */
  const StartingBuckets: nat := 3
  const Seasons: set<string> := {"spring", "summer", "autumn", "winter"}

  /** The season table (kept once; the source holds two identical copies). */
  function SeasonMultiplier(season: string): (r: Result<real>)
    ensures r.Ok? <==> season in Seasons
    ensures r.Err? ==> r.reason == UnknownSeason
    ensures r.Ok? ==> 0.8 <= r.value <= 1.2
    ensures season == "summer" ==> r == Ok(1.0)
  {
    if season == "spring" then Ok(1.2)
    else if season == "summer" then Ok(1.0)
    else if season == "autumn" then Ok(0.9)
    else if season == "winter" then Ok(0.8)
    else Err(UnknownSeason)
  }

  datatype Farm = Farm(name: string, cattle: seq<Animal>, storage: real, buckets: seq<Bucket>)

  predicate SoundFarm(f: Farm) {
    forall k :: 0 <= k < |f.cattle| ==> SoundAnimal(f.cattle[k])
  }

  function NewFarm(name: string): (f: Farm)
    ensures f.name == name && f.cattle == [] && f.storage == 0.0
    ensures |f.buckets| == StartingBuckets && Volume(f.buckets) == 0.0
    ensures forall k :: 0 <= k < |f.buckets| ==> f.buckets[k] == EmptyBucket
    ensures SoundFarm(f)
  {
    var bs := [EmptyBucket, EmptyBucket, EmptyBucket];
    VolumeOfEmpties(bs);
    Farm(name, [], 0.0, bs)
  }

  // --------------------------------------------------------------- roster

  /** Anything that might be handed to the farm: cattle, or some other creature. */
  datatype Creature = Livestock(animal: Animal) | NonCattle

  /** add_cattle: only cows and bulls are admitted, at the end of the roster. */
  function AddCattle(f: Farm, x: Creature): (r: Result<Farm>)
    ensures r.Ok? <==> x.Livestock?
    ensures r.Err? ==> r.reason == NotCattle
    ensures r.Ok? ==> r.value.cattle == f.cattle + [x.animal] && r.value.(cattle := f.cattle) == f
    ensures r.Ok? && SoundFarm(f) && SoundAnimal(x.animal) ==> SoundFarm(r.value)
  {
    match x
    case Livestock(a) => Ok(f.(cattle := f.cattle + [a]))
    case NonCattle => Err(NotCattle)
  }

  /** feed_all_cattle: every animal eats the same amount. */
  function FeedAllCattle(f: Farm, amount: real): (r: Farm)
    ensures |r.cattle| == |f.cattle| && r.(cattle := f.cattle) == f
    ensures forall k :: 0 <= k < |f.cattle| ==> r.cattle[k] == Eat(f.cattle[k], amount)
    ensures SoundFarm(f) ==> SoundFarm(r)
  {
    f.(cattle := seq(|f.cattle|, k requires 0 <= k < |f.cattle| => Eat(f.cattle[k], amount)))
  }

  /** update_day: bulls count their cooldown down, carrying cows count up. */
  function UpdateDay(f: Farm): (r: Farm)
    ensures |r.cattle| == |f.cattle| && r.(cattle := f.cattle) == f
    ensures forall k :: 0 <= k < |f.cattle| ==> r.cattle[k] == TickAnimal(f.cattle[k])
    ensures SoundFarm(f) ==> SoundFarm(r)
  {
    f.(cattle := seq(|f.cattle|, k requires 0 <= k < |f.cattle| => TickAnimal(f.cattle[k])))
  }

  // ------------------------------------------------------- the milking loop

  /** The state of the retry loop for one cow: the buckets so far and the
      index of the bucket to try next. */
  datatype Attempt = Attempt(cow: Cow, buckets: seq<Bucket>, index: nat)

  /** A cow's milk accepted by a bucket. */
  datatype Delivery = Delivery(cow: Cow, buckets: seq<Bucket>, index: nat, amount: real)

  datatype Try = Accepted(delivery: Delivery) | Rejected(next: Attempt)

  /** The buckets in play for an attempt: a fresh bucket is appended when the
      index has run off the end of the row. */
  function Stocked(a: Attempt): (bs: seq<Bucket>)
    requires a.index <= |a.buckets|
    ensures a.index < |bs|
    ensures a.index < |a.buckets| ==> bs == a.buckets
    ensures a.index == |a.buckets| ==> bs == a.buckets + [EmptyBucket]
  {
    if a.index >= |a.buckets| then a.buckets + [EmptyBucket] else a.buckets
  }

  /** One turn of the retry loop: milk into the bucket at the index; any
      failure moves the index on and leaves the cow as it was. */
  function TryBucket(a: Attempt, multiplier: real): (r: Try)
    requires a.index <= |a.buckets|
    ensures r.Rejected? <==> a.cow.age < MilkingAge || AddMilk(Stocked(a)[a.index], Yield(a.cow, multiplier)).Err?
    ensures r.Rejected? ==> r.next == Attempt(a.cow, Stocked(a), a.index + 1)
    ensures a.cow.age >= MilkingAge && a.index == |a.buckets| ==> r.Accepted?
    ensures r.Accepted? ==>
      && r.delivery.index == a.index
      && r.delivery.amount == Yield(a.cow, multiplier)
      && r.delivery.cow == a.cow.(food := 0.0)
      && r.delivery.buckets == Stocked(a)[a.index := Bucket(Stocked(a)[a.index].volume + r.delivery.amount)]
      && Volume(r.delivery.buckets) == Volume(a.buckets) + r.delivery.amount
  {
    var bs := Stocked(a);
    match CowMilk(a.cow, bs[a.index], multiplier)
    case Ok(m) =>
      VolumeUpdate(bs, a.index, m.bucket);
      VolumeConcat(a.buckets, [EmptyBucket]);
      VolumeSingle(EmptyBucket);
      Accepted(Delivery(m.cow, bs[a.index := m.bucket], a.index, m.amount))
    case Err(_) => Rejected(Attempt(a.cow, bs, a.index + 1))
  }

  /** The retry loop run for at most `fuel` turns: either a bucket accepted the
      milk, or the loop is still going in the returned state. */
  datatype Run = Settled(delivery: Delivery) | Pending(attempt: Attempt)

  function RunAttempts(a: Attempt, multiplier: real, fuel: nat): (r: Run)
    requires a.index <= |a.buckets|
    ensures r.Pending? ==> r.attempt.index <= |r.attempt.buckets| && r.attempt.cow == a.cow
    decreases fuel
  {
    if fuel == 0 then Pending(a)
    else
      match TryBucket(a, multiplier)
      case Accepted(d) => Settled(d)
      case Rejected(next) => RunAttempts(next, multiplier, fuel - 1)
  }

  /** The retry loop for a cow old enough to milk, which always ends: past the
      last bucket a fresh one is appended, and a fresh bucket accepts anything.
      The yield is the same on every turn because a refused milking does not
      reset the food. */
  function MilkCow(a: Attempt, multiplier: real): (d: Delivery)
    requires a.cow.age >= MilkingAge
    requires a.index <= |a.buckets|
    ensures d.amount == Yield(a.cow, multiplier)
    ensures d.cow == a.cow.(food := 0.0)
    ensures a.index <= d.index <= |a.buckets|
    ensures d.index < |a.buckets| ==>
      d.buckets == a.buckets[d.index := Bucket(a.buckets[d.index].volume + d.amount)]
    ensures d.index == |a.buckets| ==> d.buckets == a.buckets + [Bucket(d.amount)]
    ensures Volume(d.buckets) == Volume(a.buckets) + d.amount
    ensures |a.buckets| <= |d.buckets| && d.buckets[..a.index] == a.buckets[..a.index]
    decreases |a.buckets| - a.index
  {
    match TryBucket(a, multiplier)
    case Accepted(d) => d
    case Rejected(next) =>
      assert next.buckets == a.buckets;
      var d := MilkCow(next, multiplier);
      PrefixOfPrefix(d.buckets, a.buckets, a.index, next.index);
      d
  }

  /** The search behind milk_cow: every bucket from the starting index up to
      the stop refused the cow's yield, and the stop, when it is an existing
      bucket, accepted it. */
  lemma {:induction false} MilkCowSearch(a: Attempt, multiplier: real)
    requires a.cow.age >= MilkingAge
    requires a.index <= |a.buckets|
    ensures var d := MilkCow(a, multiplier);
      && (forall k :: a.index <= k < d.index ==> AddMilk(a.buckets[k], d.amount).Err?)
      && (d.index < |a.buckets| ==> AddMilk(a.buckets[d.index], d.amount).Ok?)
    decreases |a.buckets| - a.index
  {
    match TryBucket(a, multiplier)
    case Accepted(d) =>
    case Rejected(next) =>
      MilkCowSearch(next, multiplier);
  }

  /** Every cow in the roster is old enough to be milked. */
  predicate AllMilkable(cattle: seq<Animal>) {
    forall k :: 0 <= k < |cattle| && cattle[k].CowAnimal? ==> cattle[k].cow.age >= MilkingAge
  }

  /** Two rows agreeing up to `j` agree up to any `i <= j`. */
  lemma PrefixOfPrefix(x: seq<Bucket>, y: seq<Bucket>, i: nat, j: nat)
    requires i <= j <= |x| && j <= |y| && x[..j] == y[..j]
    ensures x[..i] == y[..i]
  {
    assert x[..i] == x[..j][..i];
    assert y[..i] == y[..j][..i];
  }

  /** An animal as the milking pass leaves it: a cow's food is reset. */
  function AfterMilking(a: Animal): Animal {
    match a
    case CowAnimal(c) => CowAnimal(c.(food := 0.0))
    case BullAnimal(_) => a
  }

  /** The sum of the yields of the cows in a roster, in roster order. */
  function TotalYield(cattle: seq<Animal>, multiplier: real): real
  {
    if |cattle| == 0 then 0.0
    else
      (if cattle[0].CowAnimal? then Yield(cattle[0].cow, multiplier) else 0.0)
      + TotalYield(cattle[1..], multiplier)
  }

  /** Where the milking pass stands: roster, buckets, shared index, storage,
      and for each animal passed the index it left the loop at (for a cow,
      the bucket her milk went into; for a bull, the index as it was). */
  datatype Pass = Pass(cattle: seq<Animal>, buckets: seq<Bucket>, index: nat, storage: real, stops: seq<nat>)

  /** The milking pass over a roster, carrying one bucket index from cow to
      cow; each cow's yield is added both to its bucket and to storage. */
  function MilkPass(cattle: seq<Animal>, bs: seq<Bucket>, i: nat, storage: real, multiplier: real): (r: Pass)
    requires AllMilkable(cattle)
    requires i <= |bs|
    ensures |r.cattle| == |cattle| && |r.stops| == |cattle|
    ensures forall k :: 0 <= k < |cattle| ==> r.cattle[k] == AfterMilking(cattle[k])
    ensures i <= r.index <= |r.buckets|
    ensures |bs| <= |r.buckets| && r.buckets[..i] == bs[..i]
    ensures r.storage == storage + TotalYield(cattle, multiplier)
    ensures Volume(r.buckets) == Volume(bs) + TotalYield(cattle, multiplier)
    decreases |cattle|
  {
    if |cattle| == 0 then Pass([], bs, i, storage, [])
    else
      match cattle[0]
      case BullAnimal(_) =>
        var rest := MilkPass(cattle[1..], bs, i, storage, multiplier);
        Pass([cattle[0]] + rest.cattle, rest.buckets, rest.index, rest.storage, [i] + rest.stops)
      case CowAnimal(c) =>
        var d := MilkCow(Attempt(c, bs, i), multiplier);
        var rest := MilkPass(cattle[1..], d.buckets, d.index, storage + d.amount, multiplier);
        PrefixOfPrefix(rest.buckets, d.buckets, i, d.index);
        Pass([CowAnimal(d.cow)] + rest.cattle, rest.buckets, rest.index, rest.storage, [d.index] + rest.stops)
  }

  /** milk_all_cows: an unknown season fails before anything changes;
      otherwise every cow is milked in roster order.  It ends only when every
      cow is old enough (a calf makes the loop allocate buckets forever). */
  function MilkAllCows(f: Farm, season: string): (r: Result<Farm>)
    requires season in Seasons ==> AllMilkable(f.cattle)
    ensures r.Ok? <==> season in Seasons
    ensures r.Err? ==> r.reason == UnknownSeason
    ensures r.Ok? ==>
      var m := SeasonMultiplier(season).value;
      && r.value.name == f.name
      && |r.value.cattle| == |f.cattle|
      && (forall k :: 0 <= k < |f.cattle| ==> r.value.cattle[k] == AfterMilking(f.cattle[k]))
      && r.value.storage == f.storage + TotalYield(f.cattle, m)
      && Volume(r.value.buckets) == Volume(f.buckets) + TotalYield(f.cattle, m)
      && |f.buckets| <= |r.value.buckets|
    ensures r.Ok? && SoundFarm(f) ==> SoundFarm(r.value)
  {
    var m :- SeasonMultiplier(season);
    var p := MilkPass(f.cattle, f.buckets, 0, f.storage, m);
    Ok(f.(cattle := p.cattle, buckets := p.buckets, storage := p.storage))
  }

  // ------------------------------------------------------------- the sale

  /** The buckets and storage after draining, and whether the tank overflowed. */
  datatype Drain = Drain(buckets: seq<Bucket>, storage: real, overflowed: bool)

  /** Drains buckets into storage in order; each bucket is emptied before the
      strict capacity check, so the bucket that overflows loses its milk and
      later buckets are left alone. */
  function DrainInto(bs: seq<Bucket>, storage: real): (r: Drain)
    ensures |r.buckets| == |bs|
    ensures !r.overflowed ==> r.storage == storage + Volume(bs)
    ensures !r.overflowed ==> forall k :: 0 <= k < |bs| ==> r.buckets[k] == EmptyBucket
    decreases |bs|
  {
    if |bs| == 0 then Drain([], storage, false)
    else
      var e := Empty(bs[0]);
      if storage + e.amount > StorageCapacity then Drain([e.bucket] + bs[1..], storage, true)
      else
        var rest := DrainInto(bs[1..], storage + e.amount);
        Drain([e.bucket] + rest.buckets, rest.storage, rest.overflowed)
  }

  /** Every running total of storage plus the buckets drained so far fits the tank. */
  predicate FitsTank(bs: seq<Bucket>, storage: real) {
    forall k :: 0 < k <= |bs| ==> storage + Volume(bs[..k]) <= StorageCapacity
  }

  /** The drain gets through every bucket exactly when each running total fits the tank. */
  lemma {:induction false} DrainSucceedsIff(bs: seq<Bucket>, storage: real)
    ensures !DrainInto(bs, storage).overflowed <==> FitsTank(bs, storage)
    decreases |bs|
  {
    if |bs| > 0 {
      var v := bs[0].volume;
      VolumeHeadPrefix(bs, 1);
      if storage + v <= StorageCapacity {
        DrainSucceedsIff(bs[1..], storage + v);
        forall k | 0 < k <= |bs|
          ensures storage + Volume(bs[..k]) == storage + v + Volume(bs[1..][..k - 1])
        {
          VolumeHeadPrefix(bs, k);
        }
        if FitsTank(bs, storage) {
          forall k | 0 < k <= |bs[1..]|
            ensures storage + v + Volume(bs[1..][..k]) <= StorageCapacity
          {
            assert storage + Volume(bs[..k + 1]) <= StorageCapacity;
          }
        }
      }
    }
  }

  /** On overflow there is a first bucket `k` that does not fit: the buckets
      before it are in storage, it and they are empty, the later ones are
      untouched, and the only milk lost is bucket `k`'s. */
  lemma {:induction false} DrainOverflow(bs: seq<Bucket>, storage: real) returns (k: nat)
    requires DrainInto(bs, storage).overflowed
    ensures k < |bs|
    ensures forall j :: 0 < j <= k ==> storage + Volume(bs[..j]) <= StorageCapacity
    ensures storage + Volume(bs[..k + 1]) > StorageCapacity
    ensures DrainInto(bs, storage).storage == storage + Volume(bs[..k])
    ensures forall j :: 0 <= j <= k ==> DrainInto(bs, storage).buckets[j] == EmptyBucket
    ensures DrainInto(bs, storage).buckets[k + 1..] == bs[k + 1..]
    ensures DrainInto(bs, storage).storage + Volume(DrainInto(bs, storage).buckets) + bs[k].volume
            == storage + Volume(bs)
    decreases |bs|
  {
    var d := DrainInto(bs, storage);
    var v := bs[0].volume;
    VolumeHeadPrefix(bs, 1);
    if storage + v > StorageCapacity {
      k := 0;
      assert bs[..0] == [];
      assert d.buckets == [EmptyBucket] + bs[1..];
      VolumeConcat([EmptyBucket], bs[1..]);
      VolumeSingle(EmptyBucket);
    } else {
      var k' := DrainOverflow(bs[1..], storage + v);
      k := k' + 1;
      var rest := DrainInto(bs[1..], storage + v);
      assert d == Drain([Empty(bs[0]).bucket] + rest.buckets, rest.storage, rest.overflowed);
      forall j | 0 < j <= k
        ensures storage + Volume(bs[..j]) <= StorageCapacity
      {
        VolumeHeadPrefix(bs, j);
      }
      assert storage + Volume(bs[..k + 1]) > StorageCapacity by {
        VolumeHeadPrefix(bs, k + 1);
      }
      assert d.storage == storage + Volume(bs[..k]) by {
        VolumeHeadPrefix(bs, k);
      }
      assert d.buckets[k + 1..] == bs[k + 1..] by {
        assert d.buckets[k + 1..] == rest.buckets[k' + 1..];
        assert bs[k + 1..] == bs[1..][k' + 1..];
      }
      assert d.storage + Volume(d.buckets) + bs[k].volume == storage + Volume(bs) by {
        VolumeConcat([EmptyBucket], rest.buckets);
        VolumeSingle(EmptyBucket);
        assert bs == [bs[0]] + bs[1..];
        VolumeConcat([bs[0]], bs[1..]);
        VolumeSingle(bs[0]);
        assert bs[k] == bs[1..][k'];
      }
    }
  }

  /** The farm after sell_milk, and the revenue or the reason it raised. */
  datatype Sale = Sale(farm: Farm, revenue: Result<real>)

  /** sell_milk: drains every bucket into storage, then sells the whole tank.
      On overflow the farm keeps what the drain did up to that point. */
  function SellMilk(f: Farm, price: real): (r: Sale)
    ensures r.farm.name == f.name && r.farm.cattle == f.cattle
    ensures |r.farm.buckets| == |f.buckets|
    ensures SoundFarm(f) ==> SoundFarm(r.farm)
    ensures r.revenue.Ok? <==> FitsTank(f.buckets, f.storage)
    ensures r.revenue.Err? ==> r.revenue.reason == StorageFull
    ensures r.revenue.Ok? ==>
      && r.revenue.value == (f.storage + Volume(f.buckets)) * price
      && r.farm.storage == 0.0
      && (forall k :: 0 <= k < |f.buckets| ==> r.farm.buckets[k] == EmptyBucket)
  {
    var d := DrainInto(f.buckets, f.storage);
    DrainSucceedsIff(f.buckets, f.storage);
    if d.overflowed then
      Sale(f.(buckets := d.buckets, storage := d.storage), Err(StorageFull))
    else
      Sale(f.(buckets := d.buckets, storage := 0.0), Ok(d.storage * price))
  }

  // -------------------------------------------------------- breeding check

  /** breed_cattle: a pre-check that changes nothing.  It reports the first
      failing condition; when all pass it reads a season attribute the farm
      never sets, so it always raises.  The bull's cooldown and health are not
      looked at. */
  function BreedCattle(cow: Creature, bull: Creature): (r: Result<()>)
    ensures r.Err?
    ensures !(cow.Livestock? && cow.animal.CowAnimal?) ==> r.reason == NotACow
    ensures cow.Livestock? && cow.animal.CowAnimal? && !(bull.Livestock? && bull.animal.BullAnimal?)
      ==> r.reason == NotABull
    ensures cow.Livestock? && cow.animal.CowAnimal? && bull.Livestock? && bull.animal.BullAnimal? ==>
      var c := cow.animal.cow;
      var b := bull.animal.bull;
      && (c.pregnant ==> r.reason == AlreadyPregnant)
      && (!c.pregnant && c.health < CowBreedingHealth ==> r.reason == CowTooWeak)
      && (!c.pregnant && c.health >= CowBreedingHealth && c.age < BreedingAge ==> r.reason == CowTooYoung)
      && ((!c.pregnant && c.health >= CowBreedingHealth && c.age >= BreedingAge && b.age < BreedingAge)
            ==> r.reason == BullTooYoung)
      && ((!c.pregnant && c.health >= CowBreedingHealth && c.age >= BreedingAge && b.age >= BreedingAge
            && b.virility < BreedingVirility) ==> r.reason == BullNotVirile)
    ensures r.reason == NoCurrentSeason <==>
      && cow.Livestock? && cow.animal.CowAnimal?
      && bull.Livestock? && bull.animal.BullAnimal?
      && !cow.animal.cow.pregnant
      && cow.animal.cow.health >= CowBreedingHealth
      && cow.animal.cow.age >= BreedingAge
      && bull.animal.bull.age >= BreedingAge
      && bull.animal.bull.virility >= BreedingVirility
  {
    if !(cow.Livestock? && cow.animal.CowAnimal?) then Err(NotACow)
    else if !(bull.Livestock? && bull.animal.BullAnimal?) then Err(NotABull)
    else
      var c := cow.animal.cow;
      var b := bull.animal.bull;
      if c.pregnant then Err(AlreadyPregnant)
      else if c.health < CowBreedingHealth then Err(CowTooWeak)
      else if c.age < BreedingAge then Err(CowTooYoung)
      else if b.age < BreedingAge then Err(BullTooYoung)
      else if b.virility < BreedingVirility then Err(BullNotVirile)
      else Err(NoCurrentSeason)
  }
}
